=== FILE: README.md ===
# Conversation and log-tail model of the multi-agent web front end

The program is a small web front end. A user types a prompt. The front end
forwards it to an external `run_agent` function, keeps the conversation as a
per-session history of turns, and shows that history as a Markdown
transcript. A side panel shows the tail of the structured log file,
re-rendering each JSON line in indented form.

This project models the three pieces of `app.py` that have behaviour of their
own:

- **Transcript rendering** (`format_conversation`), in module `Conversation`.
  A turn whose role is exactly `"user"` (or has no role) becomes
  `**User:** <text>`. Every other turn becomes `**Agent:** <text>`. A missing
  text is `""`. Blocks are joined by a blank line.
- **One submission** (`process_input`), in module `Conversation`. The agent
  call is given as an `AgentOutcome`: `Returned(response)` or
  `Raised(description)`, where `Raised` stands for an `Exception` the handler
  catches. The history gains a user turn and an agent turn. A caught agent
  error becomes the text `Error running agent: <description>` and does not
  escape the call.
- **The log tail** (`read_logs`), in module `LogTail`. A missing file is
  `None`. The backward loop steps back 1024 bytes at a time and stops once
  40000 bytes are collected or nothing is left. Each step reads from its seek
  position to the end of the file. The bytes are then decoded and stripped,
  and split into lines. The last 200 lines are kept. Each line is stripped and
  rendered as pretty-printed JSON if it parses, or left as it is. The results
  are joined by blank lines.

Module `PyText` holds the Python string operations these pieces use, with
Python's own character classes:

- `str.strip()` strips the characters `str.isspace()` accepts.
- `str.splitlines()` breaks at `\n`, `\r`, `\r\n`, `\v`, `\f`, `\x1c`–`\x1e`,
  `\x85`, U+2028 and U+2029.
- `sep.join(...)` joins with a separator.

The module also has a split-on-separator function, the inverse used to state
that a transcript can be read back. Module `Common` holds `Option` and
Python's `xs[-n:]`.

Byte decoding (`bytes.decode(errors="ignore")`), `json.loads` and
`json.dumps(indent=2)` are passed in as the function parameters `decode`,
`parse` and `dump`. Nothing is assumed about them.

The transcript labels are the bold Markdown `**User:** ` and `**Agent:** `.
The backward read does not collect a clean tail of the file: every iteration
prepends the whole suffix from its seek position (see Findings).

## Model

| member | source | states |
|---|---|---|
| Common.LastN | app.py:84 | `[-200:]` keeps the last `min(200, len)` lines, as a suffix of the list, and keeps all lines when there are at most 200 |
| PyText.LStrip | app.py:84 | the result is a suffix of the input, everything dropped is whitespace, and the result does not start with whitespace |
| PyText.RStrip | app.py:84 | the result is a prefix of the input, everything dropped is whitespace, and the result does not end with whitespace |
| PyText.Strip | app.py:84-85 | `strip()` returns the part of the input between a whitespace prefix and a whitespace suffix, and that part has no whitespace at either end |
| PyText.StripUnique | app.py:84-85 | `strip()` of whitespace + m + whitespace is m whenever m has no whitespace at either end: the result is fixed by these properties alone |
| PyText.StripBlank | app.py:84-85 | `strip()` of a text that is all whitespace, including the empty text, is the empty string |
| PyText.SplitLines | app.py:84 | `splitlines()` yields lines that contain no line break, and yields no lines exactly for the empty string |
| PyText.SplitLinesBreak | app.py:84 | a break-free line followed by `\r\n`, or by any single break character that does not start a `\r\n`, is the first line, the break is dropped, and splitting continues after it |
| PyText.SplitLinesSingle | app.py:84 | a non-empty break-free string is one line; with `SplitLinesBreak` this fixes the result for every input |
| PyText.SplitLinesTerminated | app.py:84 | splitting newline-terminated break-free lines, followed by anything, gives those lines back, followed by the lines of the rest |
| PyText.JoinAppend | app.py:42 | joining one more part appends the separator and that part |
| PyText.SplitOn | app.py:42 | splitting on a separator yields at least one piece, no piece contains the separator, and joining the pieces with that separator gives back the input |
| PyText.SplitOnJoin | app.py:42 | splitting a joined string on a non-empty separator recovers the parts whenever no occurrence of the separator starts inside a part, not even one that runs on into the separator after it |
| Conversation.FormatConversation | app.py:33-42 | the transcript is empty exactly when the history is empty |
| Conversation.RenderTurn | app.py:36-41 | a turn's block starts with `**User:** ` exactly when its role is `"user"` or missing, and with `**Agent:** ` otherwise, followed by its text (`""` when missing), so it reads back as that speaker and text |
| Conversation.FormatAppend | app.py:34-42 | rendering a history with one more turn adds a blank line (unless the history was empty) and that turn's block at the end, so blocks keep history order |
| Conversation.TranscriptRoundTrip | app.py:33-42 | splitting the transcript at blank lines gives one block per turn, in order, each reading back as that turn's speaker and text, provided no text contains a blank line (`\n\n`) or ends with a newline; single newlines, as in multi-line prompts, are allowed |
| Conversation.ResponseText | app.py:47-50 | the agent turn's text is the response when the agent returned, and `Error running agent: ` followed by the error's description when it raised |
| Conversation.ProcessInput | app.py:44-61 | a missing history counts as empty; the new history is the old one unchanged plus exactly a turn `{"role": "user", "text": prompt}` and a turn `{"role": "agent", "text": response text}`; the agent text is the response, or `Error running agent: ` + the description when the agent raised; the display is the rendering of the new history |
| Conversation.ProcessInputDisplay | app.py:54-61 | the new transcript is the old transcript, a blank line when there was one, then `**User:** <prompt>`, a blank line and `**Agent:** <response text>` |
| Conversation.ProcessInputKeepsPairs | app.py:54-56 | a history of alternating user/agent pairs stays one after a submission, whether or not the agent raised |
| Conversation.SessionHistory | app.py:54-56 | over any sequence of submissions, the history never loses or changes earlier turns, grows by exactly two per submission, stays in user/agent pairs, and records each prompt at its pair's user turn |
| LogTail.ChunkCount | app.py:74-80 | the loop runs a first iteration count at which its guard fails; that count is zero exactly for an empty file, and every iteration started while some of the file was still before `size` |
| LogTail.TailData | app.py:74-80 | the collected data is empty exactly for an empty file, is at least as long as the file or as the 40000-byte budget, and always ends with the file's last block |
| LogTail.ReadBackward | app.py:70-80 | the loop ends with `size <= 0` or at least 40000 bytes collected, its guard held before every earlier iteration, and `data` holds what the iterations prepended: each one the file's suffix from `max(size - 1024, 0)` |
| LogTail.AccumulatedEndsWith | app.py:79 | what is collected after fewer iterations is a suffix of what is collected after more, because each iteration only prepends |
| LogTail.SmallFileReadWhole | app.py:74-80 | a file of at most 1024 bytes is read at most once: once when it is non-empty, and not at all when it is empty, because `size > 0` fails at once; either way the data is the whole file |
| LogTail.AsWrittenRepeatsLastBlock | app.py:75-79 | for a file longer than 1024 bytes, the last 2048 bytes of the collected data are the file's last block twice |
| LogTail.AsWrittenTwoBlocks | app.py:74-80 | for a file of 1025 to 2048 bytes, the data is the whole file followed again by its last 1024 bytes |
| LogTail.ReadBackwardCorrected | app.py:74-80 | with each step reading only up to the previous position, the data is a suffix of the file, either the whole file or at least 40000 bytes, and under 41024 bytes; precisely, the whole file when it has at most 40960 bytes (40 blocks) and its last 40960 bytes otherwise |
| LogTail.ReadLogs | app.py:64-66 | a missing log file gives the empty string |
| LogTail.RenderLine | app.py:86-90 | a line that parses as JSON is shown as the pretty-printing of the parsed value; a line that does not parse is shown unchanged |
| LogTail.FormatTail | app.py:83-91 | text that is all whitespace strips to nothing and gives the empty panel |
| LogTail.FormatTailShape | app.py:84-91 | the displayed lines are at most 200 lines from the end of the stripped text's lines, in order, all of them when there are at most 200, exactly 200 otherwise, each stripped and rendered and joined by blank lines |
| LogTail.LinesOfRecords | app.py:84 | stripping and splitting a text of newline-terminated records (non-empty, break-free, no surrounding whitespace) gives exactly those records |
| LogTail.FormatTailOfRecords | app.py:83-91 | for a text of such records, the output is the last 200 records (all when fewer) in file order, each `dump(parse(line))` when it parses and the line itself otherwise, joined by blank lines |
| LogTail.ReadLogsSmallFile | app.py:64-91 | for a log file of at most 1024 bytes whose bytes decode to such records, the output of `read_logs` is that same rendering of its last 200 records |

## Findings

| source | as written | input that shows it | evidently intended | confidence | as-written member | corrected member |
|---|---|---|---|---|---|---|
| app.py:75-79 | after seeking to `size - block`, `f.read()` reads to the end of the file, so every iteration prepends the whole remaining suffix again | any log file longer than 1024 bytes; for a 2048-byte file the data is the file followed by its last 1024 bytes a second time, so the newest lines are shown twice, the second copy starting with a line fragment cut at byte 1024 | each iteration prepends only the bytes from the new seek position up to the previous one (`f.read(size - pos)`), giving a clean tail of the file | high; not executed | LogTail.AsWrittenRepeatsLastBlock | LogTail.ReadBackwardCorrected |

`LogTail.ReadLogs` keeps the loop as written (`LogTail.TailData`), because that
is what the program displays. `LogTail.ReadBackwardCorrected` states the
property the intended loop has.

## Left out

- The Gradio UI is not modelled: page layout, the submit button and enter-key
  wiring, the 2-second `gr.Interval` refresh and `demo.launch` on port 7860
  (app.py:95-126). They are framework plumbing with no logic of their own.
- The loguru configuration and every `logger` call are not modelled
  (app.py:21-30, 45, 51, 59). They are side effects on a logging library with
  rotation and an asynchronous queue.
- The `time.time()` timestamps are not modelled (app.py:45, 59). They are
  wall-clock values.
- The import of `run_agent` and its fallback stub are not modelled
  (app.py:8-19). The agent is a foreign module, and only its outcome is
  modelled, as `Conversation.AgentOutcome`.
- `str(response)` on a non-string agent response is not modelled. The
  response is taken to be a string already.
- Turn values are modelled as strings or missing. A role or text value of
  another type is not modelled, because the f-string would format it with
  Python's `str`.
- `Conversation.ProcessInput` returns a new history value. The source instead
  appends in place to the list the UI passed in. Aliasing of that list is not
  modelled.
- Byte decoding with `errors="ignore"`, `json.loads` and
  `json.dumps(indent=2)` are not modelled. They are the parameters `decode`,
  `parse` and `dump`, with no properties assumed, because their behaviour is
  library code.
- The `"Could not read logs: ..."` path and the filesystem calls (`exists`,
  `open`, `seek`, `tell`) are not modelled (app.py:65-69, 92-93). They are I/O.
  The file is `Some(bytes)` when it exists and `None` when it does not.
- The unused `threading` import is not modelled (app.py:5).
- The log file is modelled as a fixed snapshot of its bytes. Each `f.read()`
  (app.py:79) reads to the end of the file as it is at that moment, and the
  logger's queued writer (app.py:24-30) and the log calls in `process_input`
  (app.py:45, 59) can append to the file between `f.tell()` (app.py:71) and a
  later read. Such concurrent appends are not modelled.
- Only agent errors that are `Exception`s are modelled (`Raised`). A
  `BaseException` outside `Exception`, such as `SystemExit` or
  `KeyboardInterrupt`, escapes the `except Exception` at app.py:49 and leaves
  `process_input` without a result. It is not modelled.
- An exception raised by `json.dumps` inside the per-line `try` (app.py:88-89)
  is not modelled, because `dump` is a total function parameter.
- Conversation.TranscriptRoundTrip: stated only for turn texts that contain
  no blank line (`\n\n`) and do not end with a newline. Such a text would run
  into the blank line between blocks, so the split cannot recover it. Texts
  with single newlines, such as multi-line prompts from the three-line input
  box (app.py:110), are covered.
- LogTail.FormatTailOfRecords: stated only for texts of newline-terminated
  records that are non-empty, contain no line break in `splitlines()`'s sense
  and have no whitespace at either end. Other texts, including a record whose
  JSON carries an unescaped U+2028, U+2029 or U+0085 and so splits into
  several lines, are covered only by `LogTail.FormatTailShape`.
- LogTail.ReadLogsSmallFile: stated only for files of at most 1024 bytes. For
  larger files the loop repeats content (see Findings), and
  `LogTail.AsWrittenRepeatsLastBlock` and `LogTail.AsWrittenTwoBlocks` describe
  what it collects instead.

=== FILE: common.dfy ===
/** Small shared building blocks: an optional value, and Python's `xs[-n:]` slice. */
module Common {

  /** A value that may be absent, such as a dictionary key that was never set. */
  datatype Option<+T> = None | Some(value: T) {

    /** The value, or `default` when absent (Python's `d.get(key, default)`). */
    function GetOr(default: T): T {
      match this
      case Some(v) => v
      case None => default
    }
  }

  /** Python's `xs[-n:]` for `n > 0`: the last `n` elements, or all of `xs` when it is shorter. */
  function LastN<T>(xs: seq<T>, n: nat): (r: seq<T>)
    requires n > 0
    ensures |r| <= n && |r| <= |xs|
    ensures |xs| <= n ==> r == xs
    ensures |xs| > n ==> |r| == n
    ensures r == xs[|xs| - |r|..]
  {
    if |xs| <= n then xs else xs[|xs| - n..]
  }
}

=== FILE: conversation.dfy ===
/**
  The conversation handler: how a session history of turns is rendered as a
  Markdown transcript, and how one submitted prompt extends that history with
  a user turn and an agent turn, whatever the agent does.
 */
module Conversation {
  import opened Common
  import opened PyText

  /**
    One entry of the history: a dictionary whose "role" and "text" keys may
    each be missing (`None`).
   */
  datatype Turn = Turn(role: Option<string>, text: Option<string>)

  /** `turn.get("role", "user")`. */
  function RoleOf(t: Turn): string {
    t.role.GetOr("user")
  }

  /** `turn.get("text", "")`. */
  function TextOf(t: Turn): string {
    t.text.GetOr("")
  }

  /** Who a rendered block is attributed to: only the exact role "user" is the user. */
  datatype Speaker = User | Agent

  function SpeakerOf(t: Turn): Speaker {
    if RoleOf(t) == "user" then User else Agent
  }

  const UserLabel: string := "**User:** "
  const AgentLabel: string := "**Agent:** "
  const BlockSep: string := "\n\n"

  function Label(who: Speaker): string {
    match who
    case User => UserLabel
    case Agent => AgentLabel
  }

  /**
    The Markdown block for one turn. It starts with the user label exactly
    when the turn is the user's, so reading it back recovers who spoke and
    what was said.
   */
  function RenderTurn(t: Turn): (b: string)
    ensures ParseBlock(b) == Some((SpeakerOf(t), TextOf(t)))
  {
    var tag := Label(SpeakerOf(t));
    var b := tag + TextOf(t);
    assert b[..|tag|] == tag;
    assert b[|tag|..] == TextOf(t);
    assert b[..|UserLabel|][2] == tag[2];
    b
  }

  /** The blocks of a history, one per turn, in history order. */
  function Blocks(history: seq<Turn>): (blocks: seq<string>)
    ensures |blocks| == |history|
  {
    seq(|history|, i requires 0 <= i < |history| => RenderTurn(history[i]))
  }

  /** `format_conversation(history)`: the blocks joined by a blank line. */
  function FormatConversation(history: seq<Turn>): (md: string)
    ensures md == [] <==> history == []
  {
    var blocks := Blocks(history);
    JoinStartsWithFirst(blocks, BlockSep);
    Join(blocks, BlockSep)
  }

  /** Reads a rendered block back: who spoke, and the text after the label. */
  function ParseBlock(block: string): Option<(Speaker, string)> {
    if |block| >= |UserLabel| && block[..|UserLabel|] == UserLabel then
      Some((User, block[|UserLabel|..]))
    else if |block| >= |AgentLabel| && block[..|AgentLabel|] == AgentLabel then
      Some((Agent, block[|AgentLabel|..]))
    else
      None
  }

  /** Rendering the history with one more turn extends the transcript by one block at the end. */
  lemma FormatAppend(history: seq<Turn>, t: Turn)
    ensures FormatConversation(history + [t])
         == (if history == [] then "" else FormatConversation(history) + BlockSep) + RenderTurn(t)
  {
    var blocks := Blocks(history);
    assert Blocks(history + [t]) == blocks + [RenderTurn(t)];
    if history == [] {
      assert blocks + [RenderTurn(t)] == [RenderTurn(t)];
    } else {
      JoinAppend(blocks, RenderTurn(t), BlockSep);
    }
  }

  /**
    A turn text that cannot run into the blank line between blocks: it has no
    blank line (`"\n\n"`) inside and does not end with a newline. Single
    newlines, as in a multi-line prompt, are allowed.
   */
  predicate Paragraph(text: string) {
    && (forall j :: 0 <= j < |text| ==> !OccursAt(text, BlockSep, j))
    && (text == [] || text[|text| - 1] != '\n')
  }

  /** The block of a turn whose text is a paragraph ends before the next blank line starts. */
  lemma BlockSplitsCleanly(t: Turn)
    requires Paragraph(TextOf(t))
    ensures SplitsCleanly(RenderTurn(t), BlockSep)
  {
    var tag := Label(SpeakerOf(t));
    assert RenderTurn(t) == tag + TextOf(t);
    assert '\n' !in tag;
    TaggedSplitsCleanly(tag, TextOf(t));
  }

  /** A newline-free tag followed by a paragraph has no blank line starting inside it. */
  lemma TaggedSplitsCleanly(tag: string, text: string)
    requires '\n' !in tag && Paragraph(text)
    ensures SplitsCleanly(tag + text, BlockSep)
  {
    var b := tag + text;
    var bs := b + BlockSep;
    forall j | 0 <= j < |b|
      ensures !OccursAt(bs, BlockSep, j)
    {
      if j < |tag| {
        assert bs[j] == tag[j] != '\n';
        assert bs[j..j + 2][0] != '\n';
      } else if j + 1 < |b| {
        var i := j - |tag|;
        assert !OccursAt(text, BlockSep, i);
        assert bs[j..j + 2] == text[i..i + 2];
      } else {
        assert bs[j] == text[|text| - 1] != '\n';
        assert bs[j..j + 2][0] != '\n';
      }
    }
  }

  /**
    The transcript can be taken apart again: splitting it at blank lines and
    reading each block back yields, turn by turn, each speaker and text, as
    long as no text contains a blank line or ends with a newline.
   */
  lemma TranscriptRoundTrip(history: seq<Turn>)
    requires |history| >= 1
    requires forall k :: 0 <= k < |history| ==> Paragraph(TextOf(history[k]))
    ensures |SplitOn(FormatConversation(history), BlockSep)| == |history|
    ensures forall i :: 0 <= i < |history| ==>
      ParseBlock(SplitOn(FormatConversation(history), BlockSep)[i]) == Some((SpeakerOf(history[i]), TextOf(history[i])))
  {
    var blocks := Blocks(history);
    forall k | 0 <= k < |blocks|
      ensures SplitsCleanly(blocks[k], BlockSep)
    {
      BlockSplitsCleanly(history[k]);
    }
    SplitOnJoin(blocks, BlockSep);
    assert forall i :: 0 <= i < |history| ==> blocks[i] == RenderTurn(history[i]);
  }

  // ---------------------------------------------------------------------------
  // process_input
  // ---------------------------------------------------------------------------

  /** What the external agent did with the prompt: returned a response, or raised an error. */
  datatype AgentOutcome = Returned(response: string) | Raised(description: string)

  const ErrorPrefix: string := "Error running agent: "

  /** The text recorded for the agent's turn: the response, or the error message that replaces it. */
  function ResponseText(outcome: AgentOutcome): (s: string)
    ensures outcome.Returned? ==> s == outcome.response
    ensures outcome.Raised? ==>
      && |s| == |ErrorPrefix| + |outcome.description|
      && s[..|ErrorPrefix|] == ErrorPrefix
      && s[|ErrorPrefix|..] == outcome.description
  {
    match outcome
    case Returned(response) => response
    case Raised(description) => ErrorPrefix + description
  }

  /** What `process_input` hands back to the UI: the transcript and the new history. */
  datatype Submission = Submission(display: string, history: seq<Turn>)

  /**
    `process_input(prompt, history)` with the agent's behaviour given as
    `outcome`. A missing (`None`) or empty history counts as empty. An agent
    error (`Raised`, an `Exception` the handler catches) does not escape: it
    becomes the text of the agent's turn.
   */
  function ProcessInput(prompt: string, history: Option<seq<Turn>>, outcome: AgentOutcome): (r: Submission)
    ensures var before := history.GetOr([]);
      && |r.history| == |before| + 2
      && r.history[..|before|] == before
      && r.history[|before|] == Turn(Some("user"), Some(prompt))
      && r.history[|before| + 1] == Turn(Some("agent"), Some(ResponseText(outcome)))
    ensures r.display == FormatConversation(r.history)
  {
    var before := history.GetOr([]);
    var after := before + [Turn(Some("user"), Some(prompt)), Turn(Some("agent"), Some(ResponseText(outcome)))];
    Submission(FormatConversation(after), after)
  }

  /**
    The transcript shown after a submission is the previous transcript, a
    blank line when there was one, then the user's block and the agent's block.
   */
  lemma ProcessInputDisplay(prompt: string, history: Option<seq<Turn>>, outcome: AgentOutcome)
    ensures var before := history.GetOr([]);
      ProcessInput(prompt, history, outcome).display
        == (if before == [] then "" else FormatConversation(before) + BlockSep)
           + UserLabel + prompt + BlockSep + AgentLabel + ResponseText(outcome)
  {
    var before := history.GetOr([]);
    var user := Turn(Some("user"), Some(prompt));
    var agent := Turn(Some("agent"), Some(ResponseText(outcome)));
    var prefix := if before == [] then "" else FormatConversation(before) + BlockSep;
    var u := RenderTurn(user);
    var a := RenderTurn(agent);
    assert u == UserLabel + prompt;
    assert a == AgentLabel + ResponseText(outcome);
    assert before + [user, agent] == (before + [user]) + [agent];
    FormatAppend(before, user);
    FormatAppend(before + [user], agent);
    assert FormatConversation(before + [user, agent]) == (prefix + u) + BlockSep + a;
    ConcatAssoc5(prefix, UserLabel, prompt, BlockSep, AgentLabel, ResponseText(outcome));
  }

  lemma ConcatAssoc5(p: string, l1: string, x: string, sep: string, l2: string, y: string)
    ensures (p + (l1 + x)) + sep + (l2 + y) == p + l1 + x + sep + l2 + y
  {
  }

  /** Turns alternate user, agent, user, agent, … and come in complete pairs. */
  predicate Paired(history: seq<Turn>) {
    && |history| % 2 == 0
    && forall i :: 0 <= i < |history| ==> SpeakerOf(history[i]) == (if i % 2 == 0 then User else Agent)
  }

  /** Every submission keeps the history in complete user/agent pairs. */
  lemma ProcessInputKeepsPairs(prompt: string, history: Option<seq<Turn>>, outcome: AgentOutcome)
    requires Paired(history.GetOr([]))
    ensures Paired(ProcessInput(prompt, history, outcome).history)
  {
    var before := history.GetOr([]);
    var after := ProcessInput(prompt, history, outcome).history;
    assert SpeakerOf(after[|before|]) == User;
    assert SpeakerOf(after[|before| + 1]) == Agent;
    PairAppended(before, after);
  }

  /** A paired history followed by one user turn and one agent turn is still paired. */
  lemma PairAppended(before: seq<Turn>, after: seq<Turn>)
    requires Paired(before)
    requires |after| == |before| + 2 && after[..|before|] == before
    requires SpeakerOf(after[|before|]) == User && SpeakerOf(after[|before| + 1]) == Agent
    ensures Paired(after)
  {
    forall i | 0 <= i < |after|
      ensures SpeakerOf(after[i]) == (if i % 2 == 0 then User else Agent)
    {
      if i < |before| {
        assert after[i] == after[..|before|][i];
      }
    }
  }

  /** A session: the history after submitting each (prompt, outcome) in turn. */
  function RunSession(history: seq<Turn>, inputs: seq<(string, AgentOutcome)>): seq<Turn>
    decreases |inputs|
  {
    if |inputs| == 0 then history
    else RunSession(ProcessInput(inputs[0].0, Some(history), inputs[0].1).history, inputs[1..])
  }

  /**
    Over a whole session the history only grows, by exactly two turns per
    submission, stays in user/agent pairs, and records each prompt as the
    user turn of its pair.
   */
  lemma {:induction false} SessionHistory(history: seq<Turn>, inputs: seq<(string, AgentOutcome)>)
    requires Paired(history)
    ensures var final := RunSession(history, inputs);
      && |final| == |history| + 2 * |inputs|
      && final[..|history|] == history
      && Paired(final)
      && forall i :: 0 <= i < |inputs| ==> final[|history| + 2 * i] == Turn(Some("user"), Some(inputs[i].0))
    decreases |inputs|
  {
    if |inputs| > 0 {
      var next := ProcessInput(inputs[0].0, Some(history), inputs[0].1).history;
      ProcessInputKeepsPairs(inputs[0].0, Some(history), inputs[0].1);
      SessionHistory(next, inputs[1..]);
      assert RunSession(history, inputs) == RunSession(next, inputs[1..]);
      ExtendSession(history, next, RunSession(next, inputs[1..]), inputs);
    }
  }

  /** One submission in front of the rest of a session: the rest's facts carry over to the whole. */
  lemma ExtendSession(history: seq<Turn>, next: seq<Turn>, final: seq<Turn>, inputs: seq<(string, AgentOutcome)>)
    requires |inputs| > 0
    requires |next| == |history| + 2 && next[..|history|] == history
    requires next[|history|] == Turn(Some("user"), Some(inputs[0].0))
    requires |final| == |next| + 2 * |inputs[1..]| && final[..|next|] == next
    requires forall i :: 0 <= i < |inputs[1..]| ==> final[|next| + 2 * i] == Turn(Some("user"), Some(inputs[1..][i].0))
    ensures |final| == |history| + 2 * |inputs| && final[..|history|] == history
    ensures forall i :: 0 <= i < |inputs| ==> final[|history| + 2 * i] == Turn(Some("user"), Some(inputs[i].0))
  {
    PrefixOfPrefix(final, next, history);
    assert final[|history|] == final[..|next|][|history|];
    forall i | 1 <= i < |inputs|
      ensures final[|history| + 2 * i] == Turn(Some("user"), Some(inputs[i].0))
    {
      assert inputs[i] == inputs[1..][i - 1];
      assert |history| + 2 * i == |next| + 2 * (i - 1);
    }
  }

  lemma PrefixOfPrefix<T>(a: seq<T>, b: seq<T>, c: seq<T>)
    requires |c| <= |b| <= |a|
    requires a[..|b|] == b && b[..|c|] == c
    ensures a[..|c|] == c
  {
    assert a[..|c|] == a[..|b|][..|c|];
  }
}

=== FILE: logtail.dfy ===
/**
  The log tail reader: the backward chunk loop that collects bytes from the
  end of the log file, and the line selection and formatting that turns them
  into the text of the log panel.

  Byte decoding, JSON parsing and JSON pretty-printing are library behaviour
  outside this model; they are passed in as functions (`decode`, `parse`,
  `dump`), and nothing is assumed about them.
 */
module LogTail {
  import opened Common
  import opened PyText

  newtype byte = b: int | 0 <= b < 256

  /** Bytes after which reading stops: 200 lines of 200 bytes. */
  const Budget: int := 200 * 200
  /** Lines kept for display. */
  const MaxLines: nat := 200

  // ---------------------------------------------------------------------------
  // The backward read loop, as written
  // ---------------------------------------------------------------------------

  /**
    Where iteration `i` seeks to in a file of `n` bytes: one block (1024
    bytes, the loop's `block`) before the current `size = n - 1024 * i`, or
    the start of the file.
   */
  function ChunkStart(n: nat, i: nat): (pos: nat)
    ensures pos <= n
  {
    if n - 1024 * (i + 1) > 0 then n - 1024 * (i + 1) else 0
  }

  /**
    The bytes collected after `k` iterations. Each iteration reads from its
    seek position to the END of the file and puts that in front of what it
    already has, so later iterations re-read bytes earlier ones collected.
   */
  function Accumulated(file: seq<byte>, k: nat): seq<byte>
    decreases k
  {
    if k == 0 then [] else file[ChunkStart(|file|, k - 1)..] + Accumulated(file, k - 1)
  }

  /** The loop guard fails after `k` iterations: nothing is left before `size`, or the budget is met. */
  predicate Stopped(file: seq<byte>, k: nat) {
    |file| - 1024 * k <= 0 || |Accumulated(file, k)| >= Budget
  }

  function CountFrom(file: seq<byte>, k: nat): (c: nat)
    requires forall j :: 0 <= j < k ==> !Stopped(file, j)
    ensures k <= c
    ensures Stopped(file, c)
    ensures forall j :: 0 <= j < c ==> !Stopped(file, j)
    decreases |file| - 1024 * k
  {
    if Stopped(file, k) then k else CountFrom(file, k + 1)
  }

  /** How many times the loop body runs: the first iteration count at which the guard fails. */
  function ChunkCount(file: seq<byte>): (k: nat)
    ensures Stopped(file, k)
    ensures forall j :: 0 <= j < k ==> !Stopped(file, j)
    ensures k == 0 <==> |file| == 0
    ensures k > 0 ==> 1024 * (k - 1) < |file|
  {
    var k := CountFrom(file, 0);
    assert k > 0 ==> !Stopped(file, k - 1);
    k
  }

  /**
    The bytes the loop leaves in `data`: nothing only for an empty file, at
    least as many bytes as the file or the budget, and always ending with the
    file's last block, its newest bytes.
   */
  function TailData(file: seq<byte>): (data: seq<byte>)
    ensures |data| == 0 <==> |file| == 0
    ensures |data| >= |file| || |data| >= Budget
    ensures |file| > 0 ==> var last := file[ChunkStart(|file|, 0)..];
      |last| <= |data| && data[|data| - |last|..] == last
  {
    var k := ChunkCount(file);
    if k == 0 then
      Accumulated(file, k)
    else
      AccumulatedEndsWith(file, 1, k);
      assert Accumulated(file, 1) == file[ChunkStart(|file|, 0)..] + [];
      assert Accumulated(file, k) == file[ChunkStart(|file|, k - 1)..] + Accumulated(file, k - 1);
      Accumulated(file, k)
  }

  lemma FirstStopUnique(file: seq<byte>, k: nat)
    requires Stopped(file, k)
    requires forall j :: 0 <= j < k ==> !Stopped(file, j)
    ensures k == ChunkCount(file)
  {
  }

  /** The read loop of `read_logs`, iteration by iteration. */
  method ReadBackward(file: seq<byte>) returns (data: seq<byte>, chunks: nat)
    ensures data == Accumulated(file, chunks)
    ensures |file| - 1024 * chunks <= 0 || |data| >= Budget
    ensures forall j :: 0 <= j < chunks ==> !Stopped(file, j)
    ensures data == TailData(file)
  {
    var size: int := |file|;
    data := [];
    chunks := 0;
    while size > 0 && |data| < Budget
      invariant size == |file| - 1024 * chunks
      invariant data == Accumulated(file, chunks)
      invariant chunks <= ChunkCount(file)
      decreases size
    {
      var pos: int;
      if size - 1024 > 0 {
        pos := size - 1024;
      } else {
        pos := 0;
      }
      RunsOnBelowCount(file, chunks);
      NextChunk(file, chunks);
      data := file[pos..] + data;
      size := size - 1024;
      chunks := chunks + 1;
    }
    StopsAtCount(file, chunks);
  }

  /** While the guard holds, the iteration count is still below the final one. */
  lemma RunsOnBelowCount(file: seq<byte>, k: nat)
    requires k <= ChunkCount(file) && !Stopped(file, k)
    ensures k + 1 <= ChunkCount(file)
  {
  }

  /** The first count at which the guard fails, reached from below, is the final count. */
  lemma StopsAtCount(file: seq<byte>, k: nat)
    requires k <= ChunkCount(file) && Stopped(file, k)
    ensures k == ChunkCount(file)
  {
  }

  /** One more iteration prepends the suffix from the next seek position. */
  lemma NextChunk(file: seq<byte>, k: nat)
    ensures Accumulated(file, k + 1) == file[ChunkStart(|file|, k)..] + Accumulated(file, k)
  {
  }

  /** Bytes collected after fewer iterations end the bytes collected after more. */
  lemma {:induction false} AccumulatedEndsWith(file: seq<byte>, j: nat, k: nat)
    requires j <= k
    ensures |Accumulated(file, j)| <= |Accumulated(file, k)|
    ensures Accumulated(file, k)[|Accumulated(file, k)| - |Accumulated(file, j)|..] == Accumulated(file, j)
    decreases k
  {
    if j < k {
      AccumulatedEndsWith(file, j, k - 1);
      NextChunk(file, k - 1);
      SuffixAfterPrepend(file[ChunkStart(|file|, k - 1)..], Accumulated(file, k - 1), Accumulated(file, j));
    }
  }

  /**
    A file of at most one block is read at most once, and not at all when it
    is empty, so the loop collects exactly the file.
   */
  lemma SmallFileReadWhole(file: seq<byte>)
    requires |file| <= 1024
    ensures ChunkCount(file) == if |file| == 0 then 0 else 1
    ensures TailData(file) == file
  {
    if |file| == 0 {
      assert ChunkCount(file) == 0;
    } else {
      assert Accumulated(file, 1) == file[0..] + [];
      FirstStopUnique(file, 1);
    }
  }

  /** In a file longer than one block, the first two iterations both run. */
  lemma FirstTwoIterations(file: seq<byte>)
    requires |file| > 1024
    ensures Accumulated(file, 1) == file[|file| - 1024..]
    ensures Accumulated(file, 2) == file[ChunkStart(|file|, 1)..] + file[|file| - 1024..]
    ensures !Stopped(file, 0) && !Stopped(file, 1)
  {
    FirstIteration(file);
    NextChunk(file, 1);
    assert !Stopped(file, 1);
  }

  /** The first iteration collects the file's last block. */
  lemma FirstIteration(file: seq<byte>)
    requires |file| > 1024
    ensures Accumulated(file, 1) == file[|file| - 1024..]
    ensures !Stopped(file, 0)
  {
    NextChunk(file, 0);
    assert Accumulated(file, 0) == [];
  }

  /** The loop runs at least twice when its guard holds after zero and after one iteration. */
  lemma AtLeastTwoChunks(file: seq<byte>)
    requires !Stopped(file, 0) && !Stopped(file, 1)
    ensures ChunkCount(file) >= 2
  {
  }

  lemma SuffixAfterPrepend<T>(front: seq<T>, back: seq<T>, tail: seq<T>)
    requires |tail| <= |back| && back[|back| - |tail|..] == tail
    ensures |tail| <= |front + back| && (front + back)[|front + back| - |tail|..] == tail
  {
    assert (front + back)[|front + back| - |tail|..] == back[|back| - |tail|..];
  }

  lemma SuffixOfSuffix<T>(a: seq<T>, b: seq<T>, m: nat)
    requires |b| <= |a| && a[|a| - |b|..] == b
    requires m <= |b|
    ensures a[|a| - m..] == b[|b| - m..]
  {
    assert a[|a| - m..] == a[|a| - |b|..][|b| - m..];
  }

  /**
    In a file longer than one block, the loop runs at least twice, and the
    last block of the file appears twice in a row at the end of the data.
   */
  lemma AsWrittenRepeatsLastBlock(file: seq<byte>)
    requires |file| > 1024
    ensures var data := TailData(file); var last := file[|file| - 1024..];
      |data| >= 2048 && data[|data| - 2048..] == last + last
  {
    var k := ChunkCount(file);
    FirstTwoIterations(file);
    AtLeastTwoChunks(file);
    LastBlockTwice(file, k);
    assert TailData(file) == Accumulated(file, k);
  }

  /** After two or more iterations the collected data ends with the last block twice. */
  lemma LastBlockTwice(file: seq<byte>, k: nat)
    requires |file| > 1024 && k >= 2
    ensures var data := Accumulated(file, k); var last := file[|file| - 1024..];
      |data| >= 2048 && data[|data| - 2048..] == last + last
  {
    FirstTwoIterations(file);
    AccumulatedEndsWith(file, 2, k);
    RepeatedTail(file, ChunkStart(|file|, 1), 1024, Accumulated(file, k), Accumulated(file, 2));
  }

  /**
    Data ending with `s[a..] + last`, where `last` is the final `m` elements of
    `s` and lies inside `s[a..]`, ends with `last` twice.
   */
  lemma RepeatedTail<T>(s: seq<T>, a: nat, m: nat, data: seq<T>, two: seq<T>)
    requires a + m <= |s| && two == s[a..] + s[|s| - m..]
    requires |two| <= |data| && data[|data| - |two|..] == two
    ensures |data| >= 2 * m && data[|data| - 2 * m..] == s[|s| - m..] + s[|s| - m..]
  {
    var last := s[|s| - m..];
    assert s[a..][|s[a..]| - m..] == last;
    assert two[|two| - 2 * m..] == last + last;
    SuffixOfSuffix(data, two, 2 * m);
  }

  /** For a file of one to two blocks the data is the whole file followed again by its last block. */
  lemma AsWrittenTwoBlocks(file: seq<byte>)
    requires 1024 < |file| <= 2048
    ensures TailData(file) == file + file[|file| - 1024..]
    ensures |TailData(file)| == |file| + 1024
  {
    FirstTwoIterations(file);
    assert ChunkStart(|file|, 1) == 0;
    assert file[0..] == file;
    assert Stopped(file, 2);
    FirstStopUnique(file, 2);
  }

  // ---------------------------------------------------------------------------
  // The backward read loop, corrected
  // ---------------------------------------------------------------------------

  /**
    The loop as evidently intended: each iteration prepends only the bytes
    between the new seek position and the previous one. The result is a plain
    suffix of the file: the whole file, or the shortest block-aligned tail of
    at least `Budget` bytes, which is 40 blocks.
   */
  method ReadBackwardCorrected(file: seq<byte>) returns (data: seq<byte>)
    ensures |data| <= |file| && data == file[|file| - |data|..]
    ensures data == file || |data| >= Budget
    ensures |data| < Budget + 1024
    ensures |data| == if |file| <= 40960 then |file| else 40960
  {
    var size: int := |file|;
    data := [];
    ghost var chunks := 0;
    while size > 0 && |data| < Budget
      invariant size == |file| - 1024 * chunks
      invariant 0 <= chunks <= 40
      invariant data == file[if size > 0 then size else 0..]
      invariant |data| < Budget + 1024
      decreases size
    {
      var pos: int;
      if size - 1024 > 0 {
        pos := size - 1024;
      } else {
        pos := 0;
      }
      data := file[pos..size] + data;
      size := size - 1024;
      chunks := chunks + 1;
    }
  }

  // ---------------------------------------------------------------------------
  // Line selection and formatting
  // ---------------------------------------------------------------------------

  /** One displayed line: pretty-printed when it parses as JSON, otherwise unchanged. */
  function RenderLine<J>(line: string, parse: string -> Option<J>, dump: J -> string): (shown: string)
    ensures parse(line).None? ==> shown == line
    ensures parse(line).Some? ==> shown == dump(parse(line).value)
  {
    match parse(line)
    case Some(value) => dump(value)
    case None => line
  }

  /** The lines of the stripped text, at most the last `MaxLines` of them. */
  function KeptLines(text: string): seq<string> {
    LastN(SplitLines(Strip(text)), MaxLines)
  }

  /** Each kept line, stripped and rendered. */
  function RenderedLines<J>(lines: seq<string>, parse: string -> Option<J>, dump: J -> string): (out: seq<string>)
    ensures |out| == |lines|
  {
    seq(|lines|, i requires 0 <= i < |lines| => RenderLine(Strip(lines[i]), parse, dump))
  }

  /**
    Everything `read_logs` does after decoding: select, render, join with
    blank lines. Text that is blank after stripping shows an empty panel.
   */
  function FormatTail<J>(text: string, parse: string -> Option<J>, dump: J -> string): (panel: string)
    ensures AllSpace(text) ==> panel == ""
  {
    StripBlank(text);
    Join(RenderedLines(KeptLines(text), parse, dump), "\n\n")
  }

  /** `read_logs()`: `None` stands for a log file that does not exist. */
  function ReadLogs<J>(file: Option<seq<byte>>, decode: seq<byte> -> string,
                       parse: string -> Option<J>, dump: J -> string): (panel: string)
    ensures file.None? ==> panel == ""
  {
    match file
    case None => ""
    case Some(bytes) => FormatTail(decode(TailData(bytes)), parse, dump)
  }

  /**
    What the panel shows for a given tail text: at most `MaxLines` blocks, one
    per line, taken from the END of the stripped text's lines in their order,
    each a stripped line rendered, and all of them when there are few enough.
   */
  lemma FormatTailShape<J>(text: string, parse: string -> Option<J>, dump: J -> string)
    ensures var all := SplitLines(Strip(text)); var kept := KeptLines(text);
      && |kept| <= MaxLines
      && kept == all[|all| - |kept|..]
      && (|all| <= MaxLines ==> kept == all)
      && (|all| > MaxLines ==> |kept| == MaxLines)
      && FormatTail(text, parse, dump) == Join(RenderedLines(kept, parse, dump), "\n\n")
  {
    KeptShape(SplitLines(Strip(text)), KeptLines(text));
  }

  /** The last `MaxLines` of a list of lines, as `LastN` promises them. */
  lemma KeptShape(all: seq<string>, kept: seq<string>)
    requires kept == LastN(all, MaxLines)
    ensures |kept| <= MaxLines && kept == all[|all| - |kept|..]
    ensures |all| <= MaxLines ==> kept == all
    ensures |all| > MaxLines ==> |kept| == MaxLines
  {
  }

  /** A clean record line: non-empty, with no line break and no whitespace at either end. */
  predicate CleanLine(l: string) {
    |l| > 0 && NoBreak(l) && Trimmed(l)
  }

  /** The whitespace around a file of clean records is just its final newline. */
  lemma StripRecords(records: seq<string>)
    requires |records| > 0
    requires forall k :: 0 <= k < |records| ==> CleanLine(records[k])
    ensures Strip(Terminated(records)) == Join(records, "\n")
  {
    var n := |records|;
    var joined := Join(records, "\n");
    var last := records[n - 1];
    TerminatedIsJoin(records);
    JoinIsTerminatedPrefix(records);
    JoinStartsWithFirst(records, "\n");
    assert CleanLine(records[0]) && CleanLine(last);
    assert joined[0] == records[0][0];
    assert joined == Terminated(records[..n - 1]) + last;
    assert joined[|joined| - 1] == last[|last| - 1];
    assert AllSpace("\n");
    StripUnique([], joined, "\n");
    assert [] + joined + "\n" == Terminated(records);
  }

  /** Stripping and splitting a file of newline-terminated clean lines gives those lines back. */
  lemma LinesOfRecords(records: seq<string>)
    requires forall k :: 0 <= k < |records| ==> CleanLine(records[k])
    ensures SplitLines(Strip(Terminated(records))) == records
  {
    if |records| == 0 {
      assert Terminated(records) == "";
      StripTrimmed("");
    } else {
      StripRecords(records);
      assert CleanLine(records[|records| - 1]);
      SplitJoinedLines(records);
    }
  }

  /** Clean lines are left alone by the per-line strip. */
  lemma RenderCleanLines<J>(lines: seq<string>, parse: string -> Option<J>, dump: J -> string)
    requires forall k :: 0 <= k < |lines| ==> CleanLine(lines[k])
    ensures RenderedLines(lines, parse, dump)
         == seq(|lines|, i requires 0 <= i < |lines| => RenderLine(lines[i], parse, dump))
  {
    forall i | 0 <= i < |lines|
      ensures Strip(lines[i]) == lines[i]
    {
      assert CleanLine(lines[i]);
      StripTrimmed(lines[i]);
    }
  }

  /**
    For a log text made of newline-terminated records, the panel shows the
    last `MaxLines` records (all of them when there are fewer), in file order,
    each one pretty-printed when it parses and verbatim otherwise, separated
    by blank lines.
   */
  lemma FormatTailOfRecords<J>(records: seq<string>, parse: string -> Option<J>, dump: J -> string)
    requires forall k :: 0 <= k < |records| ==> CleanLine(records[k])
    ensures var shown := LastN(records, MaxLines);
      FormatTail(Terminated(records), parse, dump)
        == Join(seq(|shown|, i requires 0 <= i < |shown| => RenderLine(shown[i], parse, dump)), "\n\n")
  {
    LinesOfRecords(records);
    var shown := LastN(records, MaxLines);
    assert KeptLines(Terminated(records)) == shown;
    CleanSuffix(records, shown);
    RenderCleanLines(shown, parse, dump);
  }

  lemma CleanSuffix(records: seq<string>, shown: seq<string>)
    requires forall k :: 0 <= k < |records| ==> CleanLine(records[k])
    requires |shown| <= |records| && shown == records[|records| - |shown|..]
    ensures forall k :: 0 <= k < |shown| ==> CleanLine(shown[k])
  {
    forall k | 0 <= k < |shown|
      ensures CleanLine(shown[k])
    {
      assert shown[k] == records[|records| - |shown| + k];
    }
  }

  /**
    End to end for a log file of at most one block whose bytes decode to
    newline-terminated records: the panel shows the last `MaxLines` records.
   */
  lemma ReadLogsSmallFile<J>(file: seq<byte>, records: seq<string>, decode: seq<byte> -> string,
                             parse: string -> Option<J>, dump: J -> string)
    requires |file| <= 1024
    requires decode(file) == Terminated(records)
    requires forall k :: 0 <= k < |records| ==> CleanLine(records[k])
    ensures var shown := LastN(records, MaxLines);
      ReadLogs(Some(file), decode, parse, dump)
        == Join(seq(|shown|, i requires 0 <= i < |shown| => RenderLine(shown[i], parse, dump)), "\n\n")
  {
    SmallFileReadWhole(file);
    FormatTailOfRecords(records, parse, dump);
  }
}

=== FILE: pytext.dfy ===
/**
  The few Python `str` operations the front end relies on, with Python's own
  character classes: `str.strip()`, `str.splitlines()` and `sep.join(parts)`,
  plus a split-on-separator function used to state that a joined transcript
  can be taken apart again.
 */
module PyText {
  import opened Common

  /** Python's `str.isspace()` on one character: the characters `str.strip()` removes. */
  predicate IsSpace(c: char) {
    || ('\U{9}' <= c <= '\U{D}')
    || ('\U{1C}' <= c <= '\U{20}')
    || c == '\U{85}' || c == '\U{A0}' || c == '\U{1680}'
    || ('\U{2000}' <= c <= '\U{200A}')
    || c == '\U{2028}' || c == '\U{2029}' || c == '\U{202F}' || c == '\U{205F}' || c == '\U{3000}'
  }

  /** The characters at which `str.splitlines()` ends a line. */
  predicate IsLineBreak(c: char) {
    || ('\U{A}' <= c <= '\U{D}')
    || ('\U{1C}' <= c <= '\U{1E}')
    || c == '\U{85}' || c == '\U{2028}' || c == '\U{2029}'
  }

  predicate NoBreak(s: string) {
    forall i :: 0 <= i < |s| ==> !IsLineBreak(s[i])
  }

  predicate AllSpace(s: string) {
    forall i :: 0 <= i < |s| ==> IsSpace(s[i])
  }

  /** Neither end of `s` is whitespace, so `Strip` leaves it alone. */
  predicate Trimmed(s: string) {
    s == [] || (!IsSpace(s[0]) && !IsSpace(s[|s| - 1]))
  }

  // ---------------------------------------------------------------------------
  // str.strip()
  // ---------------------------------------------------------------------------

  /** `s.lstrip()`: the suffix of `s` left after dropping leading whitespace. */
  function LStrip(s: string): (r: string)
    ensures |r| <= |s| && r == s[|s| - |r|..]
    ensures forall i :: 0 <= i < |s| - |r| ==> IsSpace(s[i])
    ensures r == [] || !IsSpace(r[0])
    decreases |s|
  {
    if |s| > 0 && IsSpace(s[0]) then
      var r := LStrip(s[1..]);
      assert s[1..][|s| - 1 - |r|..] == s[|s| - |r|..];
      assert forall i :: 1 <= i < |s| - |r| ==> s[1..][i - 1] == s[i];
      r
    else
      s
  }

  /** `s.rstrip()`: the prefix of `s` left after dropping trailing whitespace. */
  function RStrip(s: string): (r: string)
    ensures |r| <= |s| && r == s[..|r|]
    ensures forall i :: |r| <= i < |s| ==> IsSpace(s[i])
    ensures r == [] || !IsSpace(r[|r| - 1])
    decreases |s|
  {
    if |s| > 0 && IsSpace(s[|s| - 1]) then
      var r := RStrip(s[..|s| - 1]);
      assert s[..|s| - 1][..|r|] == s[..|r|];
      assert forall i :: |r| <= i < |s| - 1 ==> s[..|s| - 1][i] == s[i];
      r
    else
      s
  }

  /**
    `s.strip()`: the middle of `s` between a whitespace prefix and a
    whitespace suffix, with no whitespace at either end of its own.
   */
  function Strip(s: string): (r: string)
    ensures |r| <= |s|
    ensures Trimmed(r)
    ensures exists a: nat :: Surrounded(s, a, r)
  {
    var l := LStrip(s);
    var r := RStrip(l);
    StripShape(s, l, r);
    r
  }

  /**
    Dropping leading whitespace from `s` to get `l`, then trailing whitespace
    from `l` to get `r`, leaves a trimmed `r` with whitespace around it in `s`.
   */
  lemma StripShape(s: string, l: string, r: string)
    requires |l| <= |s| && l == s[|s| - |l|..]
    requires forall i :: 0 <= i < |s| - |l| ==> IsSpace(s[i])
    requires l == [] || !IsSpace(l[0])
    requires |r| <= |l| && r == l[..|r|]
    requires forall i :: |r| <= i < |l| ==> IsSpace(l[i])
    requires r == [] || !IsSpace(r[|r| - 1])
    ensures |r| <= |s|
    ensures Trimmed(r)
    ensures exists a: nat :: Surrounded(s, a, r)
  {
    TrimAround(s, l, r);
    SurroundedSomewhere(s, |s| - |l|, r);
    if r != [] {
      assert r[0] == l[0];
    }
  }

  /** `s` is `r`, found at `a`, with only whitespace before and after it. */
  predicate Surrounded(s: string, a: nat, r: string) {
    a + |r| <= |s| && s == s[..a] + r + s[a + |r|..] && AllSpace(s[..a]) && AllSpace(s[a + |r|..])
  }

  /** Dropping leading whitespace to get `l`, then trailing whitespace to get `r`, leaves `r` surrounded by whitespace in `s`. */
  lemma TrimAround(s: string, l: string, r: string)
    requires |l| <= |s| && l == s[|s| - |l|..]
    requires forall i :: 0 <= i < |s| - |l| ==> IsSpace(s[i])
    requires |r| <= |l| && r == l[..|r|]
    requires forall i :: |r| <= i < |l| ==> IsSpace(l[i])
    ensures Surrounded(s, |s| - |l|, r)
  {
    var a := |s| - |l|;
    assert s[a..a + |r|] == r by {
      assert s[a..a + |r|] == s[a..][..|r|];
    }
    forall i | a + |r| <= i < |s|
      ensures IsSpace(s[i])
    {
      assert s[i] == l[i - a];
    }
    SpaceAround(s, a, r);
  }

  lemma SurroundedSomewhere(s: string, a: nat, r: string)
    requires Surrounded(s, a, r)
    ensures exists a': nat :: Surrounded(s, a', r)
  {
  }

  lemma SpaceAround(s: string, a: nat, r: string)
    requires a + |r| <= |s| && s[a..a + |r|] == r
    requires forall i :: 0 <= i < a ==> IsSpace(s[i])
    requires forall i :: a + |r| <= i < |s| ==> IsSpace(s[i])
    ensures Surrounded(s, a, r)
  {
    assert s == s[..a] + s[a..a + |r|] + s[a + |r|..];
  }

  lemma {:induction false} LStripSkipsSpace(a: string, t: string)
    requires AllSpace(a)
    requires t == [] || !IsSpace(t[0])
    ensures LStrip(a + t) == t
    decreases |a|
  {
    if a == [] {
      assert a + t == t;
    } else {
      assert (a + t)[1..] == a[1..] + t;
      LStripSkipsSpace(a[1..], t);
    }
  }

  lemma {:induction false} RStripSkipsSpace(t: string, b: string)
    requires AllSpace(b)
    requires t == [] || !IsSpace(t[|t| - 1])
    ensures RStrip(t + b) == t
    decreases |b|
  {
    if b == [] {
      assert t + b == t;
    } else {
      var b' := b[..|b| - 1];
      assert (t + b)[..|t + b| - 1] == t + b';
      RStripSkipsSpace(t, b');
    }
  }

  /**
    `Strip` is characterised by its result alone: whenever `s` is whitespace,
    then a string with no whitespace at either end, then whitespace, that
    middle string is what `s.strip()` returns.
   */
  lemma StripUnique(a: string, m: string, b: string)
    requires AllSpace(a) && AllSpace(b) && Trimmed(m)
    ensures Strip(a + m + b) == m
  {
    if m == [] {
      assert a + m + b == (a + b) + [];
      LStripSkipsSpace(a + b, []);
      assert RStrip([]) == [];
    } else {
      assert a + m + b == a + (m + b);
      LStripSkipsSpace(a, m + b);
      RStripSkipsSpace(m, b);
    }
  }

  /** A string of whitespace only strips to nothing. */
  lemma StripBlank(s: string)
    ensures AllSpace(s) ==> Strip(s) == []
  {
    if AllSpace(s) {
      StripUnique(s, [], []);
      assert s + [] + [] == s;
    }
  }

  lemma StripTrimmed(s: string)
    requires Trimmed(s)
    ensures Strip(s) == s
  {
    StripUnique([], s, []);
    assert [] + s + [] == s;
  }

  // ---------------------------------------------------------------------------
  // str.splitlines()
  // ---------------------------------------------------------------------------

  /** The first line break at or after `i`, or `|s|` when there is none. */
  function LineEnd(s: string, i: nat): (e: nat)
    requires i <= |s|
    ensures i <= e <= |s|
    ensures e < |s| ==> IsLineBreak(s[e])
    ensures forall j :: i <= j < e ==> !IsLineBreak(s[j])
    decreases |s| - i
  {
    if i == |s| || IsLineBreak(s[i]) then i else LineEnd(s, i + 1)
  }

  /** Where the next line starts after the break at `e`; `"\r\n"` is a single break. */
  function NextLineStart(s: string, e: nat): (n: nat)
    requires e < |s|
    ensures e < n <= |s|
  {
    if s[e] == '\r' && e + 1 < |s| && s[e + 1] == '\n' then e + 2 else e + 1
  }

  /**
    `s.splitlines()`: the lines of `s` without their breaks. An empty string
    has no lines and a final break does not start an empty last line.
   */
  function SplitLines(s: string): (lines: seq<string>)
    ensures forall k :: 0 <= k < |lines| ==> NoBreak(lines[k])
    ensures |lines| == 0 <==> |s| == 0
    decreases |s|
  {
    if |s| == 0 then []
    else
      var e := LineEnd(s, 0);
      if e == |s| then [s]
      else [s[..e]] + SplitLines(s[NextLineStart(s, e)..])
  }

  /** Each line followed by `"\n"`: a text of newline-terminated lines. */
  function Terminated(lines: seq<string>): string
    decreases |lines|
  {
    if |lines| == 0 then "" else lines[0] + "\n" + Terminated(lines[1..])
  }

  lemma SplitLinesSingle(b: string)
    requires |b| > 0 && NoBreak(b)
    ensures SplitLines(b) == [b]
  {
    assert LineEnd(b, 0) == |b|;
  }

  lemma ConsConcat<T>(a: seq<T>, x: seq<T>)
    requires |a| > 0
    ensures [a[0]] + (a[1..] + x) == a + x
  {
    assert a == [a[0]] + a[1..];
  }

  /**
    One line break as `splitlines()` reads it in front of `tail`: `"\r\n"`,
    or a single break character that is not the `'\r'` of a `"\r\n"`.
   */
  predicate BreakBefore(b: string, tail: string) {
    || b == "\r\n"
    || (|b| == 1 && IsLineBreak(b[0]) && !(b[0] == '\r' && |tail| > 0 && tail[0] == '\n'))
  }

  /**
    A break-free line followed by a line break is split off as one line, the
    break is dropped, and splitting resumes after it.
   */
  lemma SplitLinesBreak(l: string, b: string, tail: string)
    requires NoBreak(l)
    requires BreakBefore(b, tail)
    ensures SplitLines(l + b + tail) == [l] + SplitLines(tail)
  {
    var s := l + b + tail;
    assert s[|l|] == b[0];
    assert forall j :: 0 <= j < |l| ==> s[j] == l[j];
    assert LineEnd(s, 0) == |l|;
    if b == "\r\n" {
      assert s[|l| + 1] == '\n';
    } else if |tail| > 0 {
      assert s[|l| + 1] == tail[0];
    }
    assert NextLineStart(s, |l|) == |l| + |b|;
    assert s[..|l|] == l;
    assert s[|l| + |b|..] == tail;
  }

  /** A break-free line followed by `"\n"` is split off as one line, and splitting resumes after it. */
  lemma SplitLinesFirstLine(l: string, tail: string)
    requires NoBreak(l)
    ensures SplitLines(l + "\n" + tail) == [l] + SplitLines(tail)
  {
    SplitLinesBreak(l, "\n", tail);
  }

  /** Splitting newline-terminated lines gives those lines back, whatever follows them. */
  lemma {:induction false} SplitLinesTerminated(a: seq<string>, rest: string)
    requires forall k :: 0 <= k < |a| ==> NoBreak(a[k])
    ensures SplitLines(Terminated(a) + rest) == a + SplitLines(rest)
    decreases |a|
  {
    if |a| == 0 {
      assert Terminated(a) + rest == rest;
      assert a + SplitLines(rest) == SplitLines(rest);
    } else {
      var tail := Terminated(a[1..]) + rest;
      assert Terminated(a) + rest == a[0] + "\n" + tail;
      var lines := SplitLines(Terminated(a) + rest);
      var later := SplitLines(rest);
      SplitLinesFirstLine(a[0], tail);
      SplitLinesTerminated(a[1..], rest);
      assert lines == [a[0]] + (a[1..] + later);
      ConsConcat(a, later);
    }
  }

  lemma InitLast<T>(xs: seq<T>)
    requires |xs| > 0
    ensures xs[..|xs| - 1] + [xs[|xs| - 1]] == xs
  {
  }

  // ---------------------------------------------------------------------------
  // sep.join(parts) and its inverse
  // ---------------------------------------------------------------------------

  /** `sep.join(parts)`. */
  function Join(parts: seq<string>, sep: string): string
    decreases |parts|
  {
    if |parts| == 0 then ""
    else if |parts| == 1 then parts[0]
    else parts[0] + sep + Join(parts[1..], sep)
  }

  /** Joining one more part adds the separator and that part at the end. */
  lemma {:induction false} JoinAppend(parts: seq<string>, p: string, sep: string)
    requires |parts| > 0
    ensures Join(parts + [p], sep) == Join(parts, sep) + sep + p
    decreases |parts|
  {
    if |parts| == 1 {
      assert parts + [p] == [parts[0], p];
      assert [parts[0], p][1..] == [p];
    } else {
      assert (parts + [p])[1..] == parts[1..] + [p];
      JoinAppend(parts[1..], p, sep);
    }
  }

  lemma JoinStartsWithFirst(parts: seq<string>, sep: string)
    ensures |parts| > 0 ==> |Join(parts, sep)| >= |parts[0]| && Join(parts, sep)[..|parts[0]|] == parts[0]
  {
  }

  /** A file of newline-terminated lines is the lines joined by `"\n"`, plus one final `"\n"`. */
  lemma {:induction false} TerminatedIsJoin(lines: seq<string>)
    requires |lines| > 0
    ensures Terminated(lines) == Join(lines, "\n") + "\n"
    decreases |lines|
  {
    if |lines| > 1 {
      TerminatedIsJoin(lines[1..]);
    } else {
      assert Terminated(lines[1..]) == "";
    }
  }

  /** Lines joined by `"\n"` are all but the last line terminated, then the last line. */
  lemma {:induction false} JoinIsTerminatedPrefix(lines: seq<string>)
    requires |lines| > 0
    ensures Join(lines, "\n") == Terminated(lines[..|lines| - 1]) + lines[|lines| - 1]
    decreases |lines|
  {
    var n := |lines|;
    if n == 1 {
      assert lines[..0] == [];
    } else {
      JoinIsTerminatedPrefix(lines[1..]);
      assert lines[1..][..n - 2] == lines[..n - 1][1..];
      assert lines[..n - 1][0] == lines[0];
    }
  }

  /** Splitting break-free lines joined by `"\n"` gives them back when the last one is not empty. */
  lemma SplitJoinedLines(lines: seq<string>)
    requires |lines| > 0 && |lines[|lines| - 1]| > 0
    requires forall k :: 0 <= k < |lines| ==> NoBreak(lines[k])
    ensures SplitLines(Join(lines, "\n")) == lines
  {
    var n := |lines|;
    var init := lines[..n - 1];
    var last := lines[n - 1];
    JoinIsTerminatedPrefix(lines);
    assert forall k :: 0 <= k < |init| ==> init[k] == lines[k];
    SplitLinesTerminated(init, last);
    SplitLinesSingle(last);
    InitLast(lines);
  }

  /** `pat` occurs in `s` starting at index `i`. */
  predicate OccursAt(s: string, pat: string, i: int) {
    0 <= i && i + |pat| <= |s| && s[i..i + |pat|] == pat
  }

  /** `s.find(pat, i)`, with no occurrence as `None`. */
  function FindFrom(s: string, pat: string, i: nat): (r: Option<nat>)
    ensures r.Some? ==> i <= r.value && OccursAt(s, pat, r.value)
    ensures r.Some? ==> forall j :: i <= j < r.value ==> !OccursAt(s, pat, j)
    ensures r.None? ==> forall j :: i <= j ==> !OccursAt(s, pat, j)
    decreases |s| - i
  {
    if i + |pat| > |s| then None
    else if s[i..i + |pat|] == pat then Some(i)
    else FindFrom(s, pat, i + 1)
  }

  /** `s.split(sep)`: the pieces of `s` between occurrences of `sep`, left to right. */
  function SplitOn(s: string, sep: string): (parts: seq<string>)
    requires |sep| > 0
    ensures |parts| >= 1
    ensures Join(parts, sep) == s
    ensures forall k, j :: 0 <= k < |parts| ==> !OccursAt(parts[k], sep, j)
    decreases |s|
  {
    match FindFrom(s, sep, 0)
    case None => [s]
    case Some(i) =>
      var rest := SplitOn(s[i + |sep|..], sep);
      var parts := [s[..i]] + rest;
      NoOccurrenceBefore(s, sep, i);
      assert parts[1..] == rest;
      assert forall k :: 1 <= k < |parts| ==> parts[k] == rest[k - 1];
      assert s == s[..i] + sep + s[i + |sep|..] by {
        assert s[i..i + |sep|] == sep;
      }
      parts
  }

  /** A prefix of `s` ending before the first occurrence of `pat` does not contain `pat`. */
  lemma NoOccurrenceBefore(s: string, pat: string, i: nat)
    requires i <= |s|
    requires forall j :: 0 <= j < i ==> !OccursAt(s, pat, j)
    requires |pat| > 0
    ensures forall j :: !OccursAt(s[..i], pat, j)
  {
    forall j
      ensures !OccursAt(s[..i], pat, j)
    {
      if 0 <= j && j + |pat| <= i {
        assert !OccursAt(s, pat, j);
        assert s[..i][j..j + |pat|] == s[j..j + |pat|];
      }
    }
  }

  /**
    No occurrence of `sep` starts inside `p`, not even one that runs on into a
    separator placed after `p`. Then `p` contains no `sep` either.
   */
  predicate SplitsCleanly(p: string, sep: string) {
    forall j :: 0 <= j < |p| ==> !OccursAt(p + sep, sep, j)
  }

  /**
    Splitting a joined string on the separator recovers the parts whenever
    no separator occurrence starts inside a part.
   */
  lemma {:induction false} SplitOnJoin(parts: seq<string>, sep: string)
    requires |parts| >= 1 && |sep| > 0
    requires forall k :: 0 <= k < |parts| ==> SplitsCleanly(parts[k], sep)
    ensures SplitOn(Join(parts, sep), sep) == parts
    decreases |parts|
  {
    var p := parts[0];
    assert SplitsCleanly(p, sep);
    if |parts| == 1 {
      assert Join(parts, sep) == p;
      CleanPartAlone(p, sep);
    } else {
      var rest := Join(parts[1..], sep);
      var s := Join(parts, sep);
      assert s == (p + sep) + rest;
      CleanPartFirst(p, sep, rest);
      assert s[..|p|] == p;
      assert s[|p| + |sep|..] == rest;
      SplitOnJoin(parts[1..], sep);
      assert parts == [p] + parts[1..];
    }
  }

  /** A part that splits cleanly contains no occurrence of the separator. */
  lemma CleanPartAlone(p: string, sep: string)
    requires |sep| > 0 && SplitsCleanly(p, sep)
    ensures FindFrom(p, sep, 0).None?
  {
    forall j | 0 <= j
      ensures !OccursAt(p, sep, j)
    {
      if j + |sep| <= |p| {
        assert !OccursAt(p + sep, sep, j);
        assert (p + sep)[j..j + |sep|] == p[j..j + |sep|];
      }
    }
  }

  /** After a part that splits cleanly, the first separator found is the one that follows it. */
  lemma CleanPartFirst(p: string, sep: string, rest: string)
    requires |sep| > 0 && SplitsCleanly(p, sep)
    ensures FindFrom((p + sep) + rest, sep, 0) == Some(|p|)
  {
    var s := (p + sep) + rest;
    forall j | 0 <= j < |p|
      ensures !OccursAt(s, sep, j)
    {
      assert !OccursAt(p + sep, sep, j);
      assert (p + sep)[j..j + |sep|] == s[j..j + |sep|];
    }
    assert OccursAt(s, sep, |p|) by {
      assert s[|p|..|p| + |sep|] == sep;
    }
  }
}
